=== FILE: README.md ===
# TextureErrorHandler, modelled in Dafny

This project models the `TextureErrorHandler` class of a three.js portfolio
scene (`src/Experience/TextureErrorHandler.js`). The class is the defensive
layer around texture loading. It checks the KTX2 rule that image sides are
multiples of 4. It normalises a texture's (colour space, format, data type)
triple and its sampling settings. It substitutes a 512 by 512 placeholder
("fallback") when a texture is missing or cannot be repaired. It records
every problem in an error log and a warning log.

The model is functional. The handler's state is an immutable `Handler`
record. It holds the error log, the warning log, and the fallback registry,
which is a JavaScript `Map` kept as an insertion-ordered list of entries.
Every operation takes a state and returns its result together with the new
state. A texture is a record of the metadata fields the handler reads or
writes. Exceptions are explicit: an operation that may throw returns a
`Completion`, which is `Normal(value)` or `Abrupt(message)`, and the state
keeps the effects made before the throw.

Two inputs stand for things the handler cannot see, so that every
`try`/`catch` branch can be reached:

- `Texture.setterFault`: when it is `Some(m)`, every assignment to that
  texture throws `m`.
- `Env.canvasFault`: when it is `Some(m)`, drawing the fallback canvas throws
  `m` before anything is registered or logged. This is what happens when
  `getContext('2d')` returns null.

`Env.now` is the clock reading stamped on the records an operation logs.
The model gives every record of one call the same stamp.

Files and modules:

- `base.dfy` (`Base`): Option, Completion, `includes`, `toLowerCase` on ASCII
  letters, and decimal printing of integers.
- `ordered_map.dfy` (`OrderedMap`): `Map.prototype.set`, `get` and `keys`.
- `textures.dfy` (`Textures`): the texture record and the three.js constants,
  used by their values (`RGBAFormat` 1023, `UnsignedByteType` 1009,
  `LinearFilter` 1006, `LinearMipmapLinearFilter` 1008,
  `ClampToEdgeWrapping` 1001, colour spaces `"srgb"` and `"srgb-linear"`).
- `diagnostics.dfy` (`Diagnostics`): the state, `logError`, `logWarning`,
  `getErrorReport` and `clearReport`.
- `remediation.dfy` (`Remediation`): `validateTextureDimensions`,
  `fixTextureFormat`, `createFallbackTexture`, `fixExistingTexture` and
  `fixAllTextures`.
- `safe_load.dfy` (`SafeLoad`): `loadTextureSafe`, taking the loader's
  already-settled outcome.
- `console_hook.dfy` (`ConsoleHook`): the re-entrance of the console
  interception (see Findings).

Behaviour of the code worth knowing before reading the model:

- A `loadTextureSafe` rejected with an error object raises `totalIssues`
  by 2. The load failure is logged as an error (line 144). The fallback it
  creates logs a warning (line 112). See `SafeLoad.FailedLoadCountsTwoIssues`
  and `SafeLoad.UnreachableAssetScenario`; on such rejections the corrected
  loader and the code agree (`SafeLoad.AsWrittenAgreesOtherwise`). A
  rejection with `null` or `undefined` throws instead (see Findings).
- Each call of `createFallbackTexture` draws a new placeholder. It replaces
  the registry entry for the name in place and logs a warning each time.
- With `type` `'texture'`, `loadTextureSafe` runs `fixTextureFormat` on
  whatever the loader resolved (line 133). A resolved `null` or `undefined`
  makes the format fix fail and log an error. The following read of
  `texture.image` (line 136) then throws into the outer `catch`, which logs
  the load as failed and falls back. See
  `SafeLoad.ResolvedNullishCountsThreeIssues`.
- In `fixAllTextures`, an entry reaches `failed` only when
  `fixExistingTexture` itself throws. That function catches its own
  assignment failures, so this happens only when drawing the fallback also
  throws. A texture that was replaced by a fallback is still listed in
  `fixed`. The batch discards the fallback, so the resource entry keeps the
  unrepaired texture.

## Model

| member | source | states |
|---|---|---|
| Diagnostics.LogError | src/Experience/TextureErrorHandler.js:214-222 | appends exactly one error record with the given kind, message and time stamp; keeps every earlier record; leaves the warnings and the registry alone |
| Diagnostics.LogWarning | src/Experience/TextureErrorHandler.js:227-235 | appends exactly one warning record; keeps every earlier record; leaves the errors and the registry alone |
| Diagnostics.GetErrorReport | src/Experience/TextureErrorHandler.js:240-247 | `totalIssues` is the number of errors plus the number of warnings; `fallbacksCreated` lists the registry's names in the order they were first registered, so a name is in it exactly when the registry holds it, and no name is listed twice |
| Diagnostics.ClearReport | src/Experience/TextureErrorHandler.js:276-279 | both logs become empty; the registry is unchanged; the no-duplicate invariant is kept |
| Diagnostics.ClearKeepsFallbacks | src/Experience/TextureErrorHandler.js:276-279 | after a clear the report counts zero issues and lists the same fallback names in the same order as before |
| Diagnostics.LoggingCountsOneIssue | src/Experience/TextureErrorHandler.js:214-245 | each log call raises `totalIssues` by exactly one and leaves `fallbacksCreated` unchanged |
| OrderedMap.SetGet | src/Experience/TextureErrorHandler.js:111 | after `set(name, t)` the name maps to `t` and every other name keeps its value |
| OrderedMap.SetKeys | src/Experience/TextureErrorHandler.js:244 | after `set`, the key order is unchanged for a present key, and a new key is appended at the end |
| OrderedMap.SetDistinct | src/Experience/TextureErrorHandler.js:111 | `set` never makes a name appear twice among the keys |
| Base.IncludesMeansOccurs | src/Experience/TextureErrorHandler.js:188-190 | the scanning `includes` is true exactly when the word occurs at some index of the string |
| Remediation.ValidateTextureDimensions | src/Experience/TextureErrorHandler.js:43-60 | no image: returns false and appends the warning `No image data for texture: <name>` and no error. With an image: returns true exactly when both sides fill whole 4-pixel blocks. On false it appends the error `Invalid dimensions for <name>` whose message gives both sides in decimal, and leaves the warnings alone; on true the state is unchanged |
| Base.Decimal | src/Experience/TextureErrorHandler.js:54 | the text a template string prints for a non-negative integer: decimal digits, no leading zero, and the digits denote the number |
| Remediation.FixTextureFormat | src/Experience/TextureErrorHandler.js:66-87 | an sRGB hint (the constant or `'srgb'`) sets sRGB/RGBA/UnsignedByte; the linear hint sets linear/RGBA/UnsignedByte; any other hint keeps the triple. It always marks for upload, changes no other field, logs nothing and returns true. If an assignment throws: returns false, leaves the texture as it was, and logs one `Format Fix Failed` error |
| Remediation.FixTextureFormatIdempotent | src/Experience/TextureErrorHandler.js:66-82 | a second format fix with the same hint changes nothing |
| Remediation.FixTextureFormatSupported | src/Experience/TextureErrorHandler.js:69-79 | under either recognised hint the resulting triple is 8-bit RGBA in sRGB or linear sRGB |
| Remediation.CreateFallbackTexture | src/Experience/TextureErrorHandler.js:92-115 | with a working canvas: returns a 512x512 sRGB texture marked for upload and registers it under the name. A repeated name keeps its position and a new name is appended. Other names are untouched. Exactly one warning, `Created fallback texture for: <name>`, and no error is logged. If the canvas throws, nothing changes and the error propagates |
| Remediation.RepeatedFallbackKeepsOneEntry | src/Experience/TextureErrorHandler.js:111-112 | two fallbacks for the same name list it once among the registry keys but log two warnings |
| Remediation.PlaceholderPassesValidation | src/Experience/TextureErrorHandler.js:94-95 | every placeholder passes the KTX2 dimension check and logs nothing |
| Remediation.FixExistingTexture | src/Experience/TextureErrorHandler.js:152-175 | a missing texture: one error `Texture <name> is null or undefined` with no message, then a fallback for the name. A texture whose assignments throw: the `Format Fix Failed` error, then `Failed to fix texture <name>`, both with the thrown message, then a fallback. Otherwise the texture is returned with nothing logged, having the hint's triple, the upload flag, mipmaps on, trilinear min filter, linear mag filter, both wraps clamped to the edge, and its image unchanged. No other name's fallback changes |
| Remediation.RepairIdempotent | src/Experience/TextureErrorHandler.js:158-169 | repairing a repaired texture again with the same hint changes neither the texture nor the state |
| Remediation.RepairSupported | src/Experience/TextureErrorHandler.js:160-167 | a repair under either recognised hint yields a supported triple |
| Remediation.HintForName | src/Experience/TextureErrorHandler.js:188-192 | the hint is linear exactly when the lower-cased name contains `normal`, `roughness` or `metalness`, and sRGB otherwise |
| Remediation.NormalSuffixIsLinear | src/Experience/TextureErrorHandler.js:188-192 | every name ending in `_normal`, such as `wall_normal`, gets the linear hint |
| Remediation.HintForColourMapName | src/Experience/TextureErrorHandler.js:188-192 | `wall_diffuse` gets the sRGB hint |
| Remediation.RepairEntry | src/Experience/TextureErrorHandler.js:185-194 | a non-texture entry is untouched; a texture entry keeps its name and is repaired in place with its name's hint, unless its assignments throw, in which case it stays as it was |
| Remediation.FixAllTextures | src/Experience/TextureErrorHandler.js:180-209 | entries keep their names and order and become their in-place repairs. With a working canvas, `fixed` is every texture name in input order and `failed` is empty. Otherwise `fixed` lists the textures whose assignments succeed, in order, and `failed` lists the others, in order, each with the canvas error |
| Remediation.FixAllTexturesLog | src/Experience/TextureErrorHandler.js:184-200 | the batch appends two errors per texture whose assignments throw, one warning per such texture when the canvas works, and nothing else |
| Remediation.FixAllTexturesRegistry | src/Experience/TextureErrorHandler.js:184-200 | a placeholder is registered for every texture whose assignments throw (when the canvas works); every other name keeps its entry; names stay distinct |
| Remediation.FixAllTexturesQuiet | src/Experience/TextureErrorHandler.js:180-208 | when no texture's assignments throw, the state is unchanged, every texture is in `fixed` and `failed` is empty |
| Remediation.FixAllTexturesPartition | src/Experience/TextureErrorHandler.js:181-208 | with distinct entry names, `fixed` and `failed` are disjoint, their union is exactly the texture names, and each texture is listed once |
| SafeLoad.LoadTextureSafe | src/Experience/TextureErrorHandler.js:120-147 | corrected (the `catch` block reads `error?.message`): with a working canvas it never throws, and only a fallback can throw. With a `type` other than `'texture'` the resolved value comes back untouched and nothing is logged. With `'texture'`: a texture comes back with the sRGB format fix applied, or with one `Format Fix Failed` error when its assignments throw; a plain object comes back untouched; a primitive comes back after one `Format Fix Failed` error; `null`/`undefined` logs `Format Fix Failed`, then `Failed to load <name>`, then falls back. A rejection logs one `Failed to load <name>` error with the reason's message, then falls back. Falling back returns a placeholder registered under the name (in place for a known name, appended to the key order for a new one), logs the warning `Created fallback texture for: <name>`, and leaves every other name's entry alone; if the canvas fails there, its error propagates with no warning and the registry unchanged |
| SafeLoad.FailedLoadCountsTwoIssues | src/Experience/TextureErrorHandler.js:143-145 | corrected: one failed load, whatever the rejection reason, raises `totalIssues` by two, and the name is then listed among the fallbacks created |
| SafeLoad.ResolvedNullishCountsThreeIssues | src/Experience/TextureErrorHandler.js:132-145 | a `'texture'` load that resolves with `undefined` raises `totalIssues` by three, returns a placeholder, and lists the name among the fallbacks created |
| SafeLoad.FreshRejectedLoad | src/Experience/TextureErrorHandler.js:143-145 | corrected: from a fresh handler, any rejected load with a working canvas leaves exactly one `Failed to load <name>` error with the reason's message (none for `null`/`undefined`), one warning, `fallbacksCreated` equal to the name alone and `totalIssues` 2, and returns a placeholder |
| SafeLoad.UnreachableAssetScenario | src/Experience/TextureErrorHandler.js:120-147 | from a fresh handler, an unreachable `starduster` texture gives a 512x512 sRGB placeholder. The log holds one error naming it and one warning; `fallbacksCreated` is `["starduster"]` and `totalIssues` is 2 |
| SafeLoad.LoadTextureSafeAsWritten | src/Experience/TextureErrorHandler.js:143-145 | as written, a `null` or `undefined` rejection reason makes the call throw a `TypeError` with the state unchanged |
| SafeLoad.NullishRejectionEscapes | src/Experience/TextureErrorHandler.js:143-145 | a loader rejecting with `undefined` makes the written version throw although a fallback could be drawn; the corrected version returns a fallback |
| SafeLoad.AsWrittenAgreesOtherwise | src/Experience/TextureErrorHandler.js:120-147 | the written and corrected versions agree on every other outcome |
| ConsoleHook.HookLineMatchesItself | src/Experience/TextureErrorHandler.js:22-33 | the line the hook's own re-logging prints always matches the hook again |
| ConsoleHook.MatchingPrintOverflows | src/Experience/TextureErrorHandler.js:22-36 | as written, printing any matching line never finishes: every stack budget is exhausted |
| ConsoleHook.OverflowExamples | src/Experience/TextureErrorHandler.js:221 | as written, a three.js `THREE.WebGLProgram` error, or logging the failed load of `THREE_logo`, overflows the stack |
| ConsoleHook.Print | src/Experience/TextureErrorHandler.js:19-37 | corrected: a foreign line matching the hook is logged exactly once under the hook's kind; any other line changes nothing |
| ConsoleHook.PrintAgreesWhenUnmatched | src/Experience/TextureErrorHandler.js:22-36 | on lines the hook ignores, the written and corrected printing agree |

## Left out

- The installation of the console interception at construction
  (`setupErrorListeners`, lines 19-37). It replaces process-wide functions.
  Only its decision logic and re-entrance are modelled, in `ConsoleHook`.
  The rest of the model logs through the corrected, non-re-entrant path. A
  non-string first argument to the replaced functions (`args[0].includes` is
  then not a function) is not modelled.
- Console calls with several arguments. The hook tests only the first
  argument (lines 23 and 32) but logs all of them joined by spaces (lines 24
  and 33). `ConsoleHook` takes a single line, which plays both roles, so a
  call such as three.js's multi-argument shader report is modelled only
  when its first argument is the whole line.
- The canvas drawing in `createFallbackTexture`: the fill colour parameter,
  the text, and the pixels. Only the size, colour space, upload flag and
  registry effect are modelled. The other fields of a placeholder take the
  three.js `Texture` defaults.
- The promise around `loader.load` and the `source` argument: the loader is
  replaced by its settled outcome.
- The deferred re-validation that `loadTextureSafe` attaches to the image's
  `load` event (lines 135-138). It runs later, outside the call, and only
  logs. `ValidateTextureDimensions` models what it does when it fires.
- `printReport` and every `console` output line: output only.
- Image sides are unbounded naturals, printed by `Base.Decimal` as plain
  digits. JavaScript prints a number of 10^21 or more in exponent form
  (`1e+21`), so `Decimal` matches it only below 10^21. Every image source
  three.js reads gives 32-bit sides.
- Timestamps: an opaque string supplied by the caller, not a clock. The code
  takes a fresh `new Date().toISOString()` for each record (lines 218 and
  231), so the records of one call, a whole `fixAllTextures` batch say, can
  carry different stamps. The model uses one stamp per call.
- `Object.entries` order: entries are taken in the order given. JavaScript
  lists integer-like keys first, in ascending order, and this is not
  modelled.
- `toLowerCase` is modelled on ASCII letters only. No non-ASCII capital
  lowers to a letter of `normal`, `roughness` or `metalness`, so the
  classifier's verdicts are the same for those names.
- The `resources` constructor argument: it is stored but never used.
- Sharing of objects. Textures and reports are modelled as values, without
  aliasing. In the code, `getErrorReport` returns the live log arrays
  (lines 242-243), so a report a caller keeps goes on growing with later
  logs until `clearReport` swaps the arrays (lines 277-278). Its
  `totalIssues` is a snapshot. A texture object held under two resource
  names, or a placeholder that is also a resource entry, is mutated once
  for every holder. In the model each entry is repaired separately, and
  the registry's placeholders are not touched by a batch repair.
- The properties `fixTextureFormat` adds to a plain non-texture object
  resolved for a `'texture'` load. The object comes back with them in the
  code and unchanged in the model.
- The exact wording of the `TypeError` messages the engine produces, and the
  difference between `null` and `undefined` in them. Each is a fixed
  string in the model.
- Remediation.FixAllTexturesLog: states how many records the batch appends,
  not their text. The text of each record is stated per texture by
  `Remediation.FixExistingTexture`.

## Findings

| source | as written | input that shows it | evidently intended | confidence | as-written member | corrected member |
|---|---|---|---|---|---|---|
| src/Experience/TextureErrorHandler.js:22-36 | `logError` and `logWarning` print through the replaced `console.error` / `console.warn`. A printed line that mentions WebGL or THREE (errors), or THREE or KTX2 (warnings), is re-logged. The re-logged kind `WebGL/THREE Error` / `THREE/KTX2 Warning` itself matches, so the re-logging recurses until the stack overflows | `console.error("THREE.WebGLProgram: Shader Error")`, or a failed load of a texture named `THREE_logo` | a matching line is logged once, and the handler's own lines do not feed the hook | high, not executed | ConsoleHook.MatchingPrintOverflows | ConsoleHook.Print |
| src/Experience/TextureErrorHandler.js:143-145 | the `catch` block reads `error.message`. A loader that rejects with `null` or `undefined` makes that read throw a `TypeError`, so the "safe" loader rejects | a loader calling its error callback with no argument | a fallback is returned whatever the rejection reason (`error?.message`) | medium, not executed | SafeLoad.NullishRejectionEscapes | SafeLoad.LoadTextureSafe |

=== FILE: base.dfy ===
/** Small value types and string helpers shared by the texture-handler model:
    an Option, the completion of a JavaScript call (a value or a thrown error),
    and the `String.prototype` operations the handler relies on. */
module Base {

  /** A JavaScript value that may be missing: None stands for `null` or
      `undefined`. */
  datatype Option<+T> = None | Some(value: T)

  /** How a JavaScript call ended: normally with a value, or abruptly by
      throwing an error whose `message` is recorded. */
  datatype Completion<+T> = Normal(value: T) | Abrupt(message: string)

  /** `w` occurs in `s` starting at index `i`: the reference meaning of substring search. */
  predicate OccursAt(s: string, w: string, i: int)
  {
    0 <= i && i + |w| <= |s| && s[i..i + |w|] == w
  }

  /** `s.includes(w)`, computed by scanning `s` from the left. */
  predicate Includes(s: string, w: string)
    decreases |s|
  {
    if |w| > |s| then false
    else if s[..|w|] == w then true
    else |s| > 0 && Includes(s[1..], w)
  }

  /** The scan agrees with the reference meaning: `s.includes(w)` holds exactly
      when `w` occurs somewhere in `s`. */
  lemma {:induction false} IncludesMeansOccurs(s: string, w: string)
    ensures Includes(s, w) <==> exists i :: OccursAt(s, w, i)
    decreases |s|
  {
    if |w| > |s| {
    } else if s[..|w|] == w {
      assert OccursAt(s, w, 0);
    } else {
      assert |w| > 0;
      var t := s[1..];
      IncludesMeansOccurs(t, w);
      if Includes(s, w) {
        var j :| OccursAt(t, w, j);
        assert s[j + 1..j + 1 + |w|] == t[j..j + |w|];
        assert OccursAt(s, w, j + 1);
      }
      if exists i :: OccursAt(s, w, i) {
        var i :| OccursAt(s, w, i);
        assert i != 0;
        assert t[i - 1..i - 1 + |w|] == s[i..i + |w|];
        assert OccursAt(t, w, i - 1);
      }
    }
  }

  /** A witnessed occurrence makes `includes` true. */
  lemma IncludesAt(s: string, w: string, i: int)
    requires OccursAt(s, w, i)
    ensures Includes(s, w)
  {
    IncludesMeansOccurs(s, w);
  }

  /** `toLowerCase` restricted to ASCII letters. */
  function LowerChar(c: char): (d: char)
    ensures 'A' <= c <= 'Z' ==> 'a' <= d <= 'z' && d as int - c as int == 32
    ensures !('A' <= c <= 'Z') ==> d == c
  {
    if 'A' <= c <= 'Z' then (c as int + 32) as char else c
  }

  /** `s.toLowerCase()`, character by character. */
  function ToLower(s: string): (r: string)
    ensures |r| == |s|
    ensures forall i :: 0 <= i < |s| ==> r[i] == LowerChar(s[i])
  {
    if |s| == 0 then [] else [LowerChar(s[0])] + ToLower(s[1..])
  }

  /** The number a string of decimal digits denotes, read left to right. */
  function DigitsValue(s: string): nat
    requires forall i :: 0 <= i < |s| ==> '0' <= s[i] <= '9'
  {
    if |s| == 0 then 0
    else 10 * DigitsValue(s[..|s| - 1]) + (s[|s| - 1] as int - '0' as int)
  }

  /** The decimal digits JavaScript prints for a non-negative integer in a
      template string: digits only, no leading zero, denoting `n`. */
  function Decimal(n: nat): (r: string)
    ensures |r| > 0
    ensures forall i :: 0 <= i < |r| ==> '0' <= r[i] <= '9'
    ensures |r| > 1 ==> r[0] != '0'
    ensures DigitsValue(r) == n
  {
    if n < 10 then [('0' as int + n) as char]
    else
      var r := Decimal(n / 10) + [('0' as int + n % 10) as char];
      assert r[..|r| - 1] == Decimal(n / 10);
      r
  }
}

=== FILE: console_hook.dfy ===
/** The console interception the handler installs at construction: the
    replaced `console.error` re-logs lines mentioning WebGL or THREE, and the
    replaced `console.warn` re-logs lines mentioning THREE or KTX2. The
    handler's own `logError` and `logWarning` print through those same
    replaced functions, so the hook also sees every line the handler prints. */
module ConsoleHook {
  import opened Base
  import opened Diagnostics

  /** The two intercepted console channels. */
  datatype Channel = ErrorChannel | WarningChannel

  /** The tag the handler puts in front of each line it prints. */
  function Prefix(c: Channel): string
  {
    match c
    case ErrorChannel => "[TextureError] "
    case WarningChannel => "[TextureWarning] "
  }

  /** The line `logError(kind, message)` or `logWarning(kind, message)`
      prints; a missing message is printed as `undefined`. */
  function OwnLine(c: Channel, kind: string, message: Option<string>): string
  {
    Prefix(c) + kind + ": " + (match message case Some(m) => m case None => "undefined")
  }

  /** Whether the hook on channel `c` re-logs a printed line. */
  predicate HookMatches(c: Channel, line: string)
  {
    match c
    case ErrorChannel => Includes(line, "WebGL") || Includes(line, "THREE")
    case WarningChannel => Includes(line, "THREE") || Includes(line, "KTX2")
  }

  /** The kind under which the hook re-logs a matching line. */
  function HookKind(c: Channel): string
  {
    match c
    case ErrorChannel => "WebGL/THREE Error"
    case WarningChannel => "THREE/KTX2 Warning"
  }

  /** Appending a record to the log that belongs to channel `c`. */
  function Log(h: Handler, c: Channel, kind: string, message: Option<string>, now: Timestamp): Handler
  {
    match c
    case ErrorChannel => LogError(h, kind, message, now)
    case WarningChannel => LogWarning(h, kind, message, now)
  }

  /** The number of records in the log that belongs to channel `c`. */
  function LogLength(h: Handler, c: Channel): nat
  {
    match c
    case ErrorChannel => |h.errors|
    case WarningChannel => |h.warnings|
  }

  /** As written: printing `line` on the replaced channel `c`. A matching line
      is re-logged, and the re-logging prints again through the same
      replaced channel. `depth` is the call-stack budget; None stands for the
      `RangeError` thrown when the stack is exhausted. */
  function PrintAsWritten(h: Handler, c: Channel, line: string, now: Timestamp, depth: nat): Option<Handler>
    decreases depth
  {
    if !HookMatches(c, line) then Some(h)
    else if depth == 0 then None
    else
      var kind := HookKind(c);
      PrintAsWritten(Log(h, c, kind, Some(line), now), c, OwnLine(c, kind, Some(line)), now, depth - 1)
  }

  /** As written: `logError` / `logWarning` with the hook installed: the record
      is appended and the line is printed through the replaced channel. */
  function LogAsWritten(h: Handler, c: Channel, kind: string, message: Option<string>, now: Timestamp, depth: nat): Option<Handler>
  {
    PrintAsWritten(Log(h, c, kind, message, now), c, OwnLine(c, kind, message), now, depth)
  }

  /** An occurrence in a prefix is an occurrence in the whole line. */
  lemma OccursInPrefix(head: string, tail: string, w: string, i: int)
    requires OccursAt(head, w, i)
    ensures Includes(head + tail, w)
  {
    assert (head + tail)[i..i + |w|] == head[i..i + |w|];
    IncludesAt(head + tail, w, i);
  }

  /** The line the hook's own re-logging prints always matches the hook again:
      its kind names WebGL and THREE on the error channel, THREE on the warning one. */
  lemma HookLineMatchesItself(c: Channel, message: Option<string>)
    ensures HookMatches(c, OwnLine(c, HookKind(c), message))
  {
    var text := match message case Some(m) => m case None => "undefined";
    var head := Prefix(c) + HookKind(c) + ": ";
    assert OwnLine(c, HookKind(c), message) == head + text;
    match c
    case ErrorChannel =>
      assert head[15..20] == "WebGL";
      OccursInPrefix(head, text, "WebGL", 15);
    case WarningChannel =>
      assert head[17..22] == "THREE";
      OccursInPrefix(head, text, "THREE", 17);
  }

  /** As written, once a printed line matches the hook, printing never
      finishes: whatever the stack budget, it is exhausted. */
  lemma {:induction false} MatchingPrintOverflows(h: Handler, c: Channel, line: string, now: Timestamp, depth: nat)
    requires HookMatches(c, line)
    ensures PrintAsWritten(h, c, line, now, depth) == None
    decreases depth
  {
    if depth > 0 {
      var kind := HookKind(c);
      HookLineMatchesItself(c, Some(line));
      MatchingPrintOverflows(Log(h, c, kind, Some(line), now), c, OwnLine(c, kind, Some(line)), now, depth - 1);
    }
  }

  /** As written, three.js reporting a shader error on `console.error`
      overflows the stack, and so does the handler logging the failed load of
      a texture whose name contains THREE. */
  lemma OverflowExamples(now: Timestamp, depth: nat)
    ensures PrintAsWritten(Initial, ErrorChannel, "THREE.WebGLProgram: Shader Error", now, depth) == None
    ensures LogAsWritten(Initial, ErrorChannel, "Failed to load THREE_logo", Some("404"), now, depth) == None
  {
    IncludesAt("THREE.WebGLProgram: Shader Error", "THREE", 0);
    MatchingPrintOverflows(Initial, ErrorChannel, "THREE.WebGLProgram: Shader Error", now, depth);
    var h := Log(Initial, ErrorChannel, "Failed to load THREE_logo", Some("404"), now);
    var line := OwnLine(ErrorChannel, "Failed to load THREE_logo", Some("404"));
    assert line[30..35] == "THREE";
    IncludesAt(line, "THREE", 30);
    MatchingPrintOverflows(h, ErrorChannel, line, now, depth);
  }

  /** Corrected: the handler prints its own lines on the original console, so
      the hook only sees lines printed by others. A matching line is logged
      exactly once, under the hook's kind on the hook's own channel; any other
      line leaves the state alone. */
  function Print(h: Handler, c: Channel, line: string, now: Timestamp): (h': Handler)
    ensures HookMatches(c, line) ==> LogLength(h', c) == LogLength(h, c) + 1
    ensures HookMatches(c, line) && c.ErrorChannel? ==>
      Appended(h.errors, h'.errors, 1) && h'.errors[|h.errors|].kind == "WebGL/THREE Error"
      && h'.errors[|h.errors|].message == Some(line) && h'.warnings == h.warnings
    ensures HookMatches(c, line) && c.WarningChannel? ==>
      Appended(h.warnings, h'.warnings, 1) && h'.warnings[|h.warnings|].kind == "THREE/KTX2 Warning"
      && h'.warnings[|h.warnings|].message == Some(line) && h'.errors == h.errors
    ensures !HookMatches(c, line) ==> h' == h
    ensures h'.fallbacks == h.fallbacks
  {
    if HookMatches(c, line) then Log(h, c, HookKind(c), Some(line), now) else h
  }

  /** Where the hook does not fire, the written and the corrected printing agree. */
  lemma PrintAgreesWhenUnmatched(h: Handler, c: Channel, line: string, now: Timestamp, depth: nat)
    requires !HookMatches(c, line)
    ensures PrintAsWritten(h, c, line, now, depth) == Some(Print(h, c, line, now))
  {
  }
}

=== FILE: diagnostics.dfy ===
/** The handler's state and its diagnostic log: two append-only sequences of
    records (errors and warnings) and the registry of fallback textures, with
    the report derived from them and the reset that empties the logs. */
module Diagnostics {
  import opened Base
  import opened Textures
  import OrderedMap

  /** An ISO-8601 time stamp, taken from the clock; opaque to the model. */
  type Timestamp = string

  /** One logged record. `message` is None when the log call passed only a
      kind (the JavaScript `undefined`). */
  datatype Record = Record(kind: string, message: Option<string>, timestamp: Timestamp)

  /** The handler's mutable state: the error log, the warning log, and the
      fallback registry (a JavaScript `Map` from texture name to placeholder). */
  datatype Handler = Handler(errors: seq<Record>, warnings: seq<Record>, fallbacks: seq<(string, Texture)>)

  /** The state a newly constructed handler starts in. */
  const Initial: Handler := Handler([], [], [])

  /** The result of an operation that may throw, with the state it leaves
      behind: side effects made before a throw are kept. */
  datatype Step<+T> = Step(result: Completion<T>, handler: Handler)

  /** The handler's own invariant: the registry never holds a name twice. */
  predicate Valid(h: Handler)
  {
    OrderedMap.DistinctKeys(h.fallbacks)
  }

  /** `after` is `before` with exactly `n` records appended: nothing earlier is
      altered or removed. */
  predicate Appended(before: seq<Record>, after: seq<Record>, n: nat)
  {
    |after| == |before| + n && after[..|before|] == before
  }

  /** Appending in two steps is appending once. */
  lemma AppendedTrans(a: seq<Record>, b: seq<Record>, c: seq<Record>, n: nat, m: nat)
    requires Appended(a, b, n) && Appended(b, c, m)
    ensures Appended(a, c, n + m)
  {
  }

  /** `logError(kind, message)`: one error record is appended; the warnings
      and the registry are untouched. */
  function LogError(h: Handler, kind: string, message: Option<string>, now: Timestamp): (h': Handler)
    ensures Appended(h.errors, h'.errors, 1) && h'.errors[|h.errors|] == Record(kind, message, now)
    ensures h'.warnings == h.warnings && h'.fallbacks == h.fallbacks
  {
    h.(errors := h.errors + [Record(kind, message, now)])
  }

  /** `logWarning(kind, message)`: one warning record is appended; the errors
      and the registry are untouched. */
  function LogWarning(h: Handler, kind: string, message: Option<string>, now: Timestamp): (h': Handler)
    ensures Appended(h.warnings, h'.warnings, 1) && h'.warnings[|h.warnings|] == Record(kind, message, now)
    ensures h'.errors == h.errors && h'.fallbacks == h.fallbacks
  {
    h.(warnings := h.warnings + [Record(kind, message, now)])
  }

  /** What `getErrorReport()` returns. */
  datatype Report = Report(errors: seq<Record>, warnings: seq<Record>, fallbacksCreated: seq<string>, totalIssues: nat)

  /** `getErrorReport()`: a pure read of the state. */
  function GetErrorReport(h: Handler): (r: Report)
    ensures r.errors == h.errors && r.warnings == h.warnings
    ensures r.totalIssues == |r.errors| + |r.warnings|
    ensures |r.fallbacksCreated| == |h.fallbacks|
    ensures forall i :: 0 <= i < |h.fallbacks| ==> r.fallbacksCreated[i] == h.fallbacks[i].0
    ensures forall n :: n in r.fallbacksCreated <==> OrderedMap.Get(h.fallbacks, n).Some?
    ensures Valid(h) ==> forall i, j :: 0 <= i < j < |r.fallbacksCreated| ==> r.fallbacksCreated[i] != r.fallbacksCreated[j]
  {
    Report(h.errors, h.warnings, OrderedMap.Keys(h.fallbacks), |h.errors| + |h.warnings|)
  }

  /** The number of issues the report counts. */
  function TotalIssues(h: Handler): nat
  {
    GetErrorReport(h).totalIssues
  }

  /** `clearReport()`: both logs are emptied; the registry is kept. */
  function ClearReport(h: Handler): (h': Handler)
    ensures h'.errors == [] && h'.warnings == []
    ensures h'.fallbacks == h.fallbacks
    ensures Valid(h) ==> Valid(h')
  {
    h.(errors := [], warnings := [])
  }

  /** After a clear the report counts no issues but still lists every fallback
      created before it, in the same order. */
  lemma ClearKeepsFallbacks(h: Handler)
    ensures TotalIssues(ClearReport(h)) == 0
    ensures GetErrorReport(ClearReport(h)).fallbacksCreated == GetErrorReport(h).fallbacksCreated
    ensures GetErrorReport(ClearReport(h)).errors == [] && GetErrorReport(ClearReport(h)).warnings == []
  {
  }

  /** Each log call raises the issue count by exactly one and changes no
      fallback listed in the report. */
  lemma LoggingCountsOneIssue(h: Handler, kind: string, message: Option<string>, now: Timestamp)
    ensures TotalIssues(LogError(h, kind, message, now)) == TotalIssues(h) + 1
    ensures TotalIssues(LogWarning(h, kind, message, now)) == TotalIssues(h) + 1
    ensures GetErrorReport(LogError(h, kind, message, now)).fallbacksCreated == GetErrorReport(h).fallbacksCreated
    ensures GetErrorReport(LogWarning(h, kind, message, now)).fallbacksCreated == GetErrorReport(h).fallbacksCreated
  {
  }
}

=== FILE: ordered_map.dfy ===
/** The JavaScript `Map` the handler keeps its fallback textures in, as an
    insertion-ordered list of (key, value) entries. `set` on a present key
    replaces the value where it stands; on a new key it appends, so `keys()`
    enumerates keys in first-insertion order. */
module OrderedMap {
  import opened Base

  /** `Array.from(m.keys())`. */
  function Keys<V>(m: seq<(string, V)>): (ks: seq<string>)
    ensures |ks| == |m|
    ensures forall i :: 0 <= i < |m| ==> ks[i] == m[i].0
  {
    if |m| == 0 then [] else [m[0].0] + Keys(m[1..])
  }

  /** No key appears twice, as in every JavaScript `Map`. */
  predicate DistinctKeys<V>(m: seq<(string, V)>)
  {
    forall i, j :: 0 <= i < j < |m| ==> m[i].0 != m[j].0
  }

  /** `m.get(k)`, with `undefined` as None. */
  function Get<V>(m: seq<(string, V)>, k: string): (r: Option<V>)
    ensures r.None? <==> k !in Keys(m)
  {
    if |m| == 0 then None
    else if m[0].0 == k then Some(m[0].1)
    else
      assert Keys(m) == [m[0].0] + Keys(m[1..]);
      Get(m[1..], k)
  }

  /** `m.set(k, v)`: replace the value of a present key where it stands, or append. */
  function Set<V>(m: seq<(string, V)>, k: string, v: V): (r: seq<(string, V)>)
    ensures |r| == if k in Keys(m) then |m| else |m| + 1
  {
    if |m| == 0 then [(k, v)]
    else if m[0].0 == k then [(k, v)] + m[1..]
    else
      assert Keys(m) == [m[0].0] + Keys(m[1..]);
      [m[0]] + Set(m[1..], k, v)
  }

  /** After `m.set(k, v)`, `k` maps to `v` and every other key keeps its value. */
  lemma {:induction false} SetGet<V>(m: seq<(string, V)>, k: string, v: V, k': string)
    ensures Get(Set(m, k, v), k') == if k' == k then Some(v) else Get(m, k')
    decreases |m|
  {
    if |m| == 0 {
    } else if m[0].0 == k {
      assert Set(m, k, v)[1..] == m[1..];
    } else {
      SetGet(m[1..], k, v, k');
      assert Set(m, k, v)[1..] == Set(m[1..], k, v);
    }
  }

  /** `m.set(k, v)` leaves the value of every other key alone. */
  lemma SetFrame<V>(m: seq<(string, V)>, k: string, v: V)
    ensures forall k' :: k' != k ==> Get(Set(m, k, v), k') == Get(m, k')
  {
    forall k' | k' != k {
      SetGet(m, k, v, k');
    }
  }

  /** `m.set(k, v)` changes the key order only by appending a key that was absent. */
  lemma {:induction false} SetKeys<V>(m: seq<(string, V)>, k: string, v: V)
    ensures Keys(Set(m, k, v)) == if k in Keys(m) then Keys(m) else Keys(m) + [k]
    decreases |m|
  {
    if |m| == 0 {
    } else if m[0].0 == k {
    } else {
      SetKeys(m[1..], k, v);
      assert Keys(m) == [m[0].0] + Keys(m[1..]);
      assert Set(m, k, v)[1..] == Set(m[1..], k, v);
      assert Keys(Set(m, k, v)) == [m[0].0] + Keys(Set(m[1..], k, v));
    }
  }

  /** `m.set(k, v)` keeps the keys distinct. */
  lemma SetDistinct<V>(m: seq<(string, V)>, k: string, v: V)
    requires DistinctKeys(m)
    ensures DistinctKeys(Set(m, k, v))
  {
    var r := Set(m, k, v);
    SetKeys(m, k, v);
    forall i, j | 0 <= i < j < |r| ensures r[i].0 != r[j].0 {
      assert Keys(r)[i] == r[i].0 && Keys(r)[j] == r[j].0;
      if k in Keys(m) {
        assert Keys(m)[i] == m[i].0 && Keys(m)[j] == m[j].0;
      } else if j < |m| {
        assert Keys(m)[i] == m[i].0 && Keys(m)[j] == m[j].0;
      } else {
        assert r[j].0 == k;
        assert Keys(m)[i] == m[i].0;
      }
    }
  }
}

=== FILE: remediation.dfy ===
/** The texture-repair operations of the handler: the KTX2 dimension check,
    colour-format normalisation, fallback creation, the repair of one texture
    and the batch repair of a resource collection. */
module Remediation {
  import opened Base
  import opened Textures
  import opened Diagnostics
  import OrderedMap

  /** The ambient inputs of an operation: the clock reading stamped on every
      record it logs, and whether the 2D canvas works. When `canvasFault` is
      Some(m), drawing a fallback canvas throws an error with message `m`
      before anything is registered or logged (a canvas whose `getContext('2d')`
      returned null, say). */
  datatype Env = Env(now: Timestamp, canvasFault: Option<string>)

  // ------------------------------------------------------------------
  // validateTextureDimensions
  // ------------------------------------------------------------------

  /** A verdict with the state it leaves behind. */
  datatype Verdict = Verdict(ok: bool, handler: Handler)

  /** `n % 4 == 0` is exactly the KTX2 block condition. */
  lemma MultipleOfFourFillsBlocks(n: nat)
    ensures n % 4 == 0 <==> FillsWholeBlocks(n)
  {
  }

  /** The message of a dimension error, naming both sides in decimal. */
  function SizeMessage(img: Image): string
  {
    "Size " + Decimal(img.width) + "x" + Decimal(img.height)
      + " is not multiple of 4. KTX2 requires multiple-of-four dimensions."
  }

  /** `validateTextureDimensions(texture, name)`: a texture without an image
      fails with one warning; an image whose sides do not both fill whole 4x4
      blocks fails with one error; a block-aligned image passes silently. */
  function ValidateTextureDimensions(h: Handler, t: Texture, name: string, now: Timestamp): (r: Verdict)
    ensures t.image.None? ==>
      && !r.ok
      && Appended(h.warnings, r.handler.warnings, 1)
      && r.handler.warnings[|h.warnings|] == Record("No image data for texture: " + name, None, now)
      && r.handler.errors == h.errors && r.handler.fallbacks == h.fallbacks
    ensures t.image.Some? ==>
      (r.ok <==> FillsWholeBlocks(t.image.value.width) && FillsWholeBlocks(t.image.value.height))
    ensures t.image.Some? && r.ok ==> r.handler == h
    ensures t.image.Some? && !r.ok ==>
      && Appended(h.errors, r.handler.errors, 1)
      && r.handler.errors[|h.errors|] == Record("Invalid dimensions for " + name, Some(SizeMessage(t.image.value)), now)
      && r.handler.warnings == h.warnings && r.handler.fallbacks == h.fallbacks
  {
    match t.image
    case None => Verdict(false, LogWarning(h, "No image data for texture: " + name, None, now))
    case Some(img) =>
      MultipleOfFourFillsBlocks(img.width);
      MultipleOfFourFillsBlocks(img.height);
      if img.width % 4 != 0 || img.height % 4 != 0 then
        Verdict(false, LogError(h, "Invalid dimensions for " + name, Some(SizeMessage(img)), now))
      else
        Verdict(true, h)
  }

  // ------------------------------------------------------------------
  // fixTextureFormat
  // ------------------------------------------------------------------

  /** `u` carries the triple `hint` selects for `t`: sRGB or linear 8-bit RGBA
      for the two recognised hints, `t`'s own triple for any other. */
  predicate FormatChosen(t: Texture, hint: string, u: Texture)
  {
    && (IsSRGBHint(hint) ==> Triple(u) == (SRGBColorSpace, RGBAFormat, UnsignedByteType))
    && (IsLinearHint(hint) ==> Triple(u) == (LinearSRGBColorSpace, RGBAFormat, UnsignedByteType))
    && (!IsSRGBHint(hint) && !IsLinearHint(hint) ==> Triple(u) == Triple(t))
  }

  /** `u` is `t` after a format fix: the chosen triple, marked for upload,
      and every other field as it was. */
  predicate FormatApplied(t: Texture, hint: string, u: Texture)
  {
    && FormatChosen(t, hint, u)
    && u.needsUpdate
    && u.image == t.image && u.setterFault == t.setterFault
    && u.generateMipmaps == t.generateMipmaps
    && u.minFilter == t.minFilter && u.magFilter == t.magFilter
    && u.wrapS == t.wrapS && u.wrapT == t.wrapT
  }

  /** The assignments of the `try` block of `fixTextureFormat`, when none throws. */
  function FormatFields(t: Texture, hint: string): Texture
  {
    var u :=
      if IsSRGBHint(hint) then t.(colorSpace := SRGBColorSpace, format := RGBAFormat, dataType := UnsignedByteType)
      else if IsLinearHint(hint) then t.(colorSpace := LinearSRGBColorSpace, format := RGBAFormat, dataType := UnsignedByteType)
      else t;
    u.(needsUpdate := true)
  }

  /** The kind under which a failed format fix is logged. */
  const FormatFixFailed: string := "Format Fix Failed"

  /** A format fix: whether it succeeded, the texture after it, and the state. */
  datatype FormatFix = FormatFix(ok: bool, texture: Texture, handler: Handler)

  /** `fixTextureFormat(texture, colorSpace)`: sets the triple the hint selects
      and marks the texture for upload, returning true; if an assignment
      throws, the texture is left as it was, the failure is logged as one
      error, and it returns false. It never throws. */
  function FixTextureFormat(h: Handler, t: Texture, hint: string, now: Timestamp): (r: FormatFix)
    ensures t.setterFault.None? ==> r.ok && r.handler == h && FormatApplied(t, hint, r.texture)
    ensures t.setterFault.Some? ==>
      && !r.ok && r.texture == t
      && Appended(h.errors, r.handler.errors, 1)
      && r.handler.errors[|h.errors|] == Record(FormatFixFailed, t.setterFault, now)
      && r.handler.warnings == h.warnings && r.handler.fallbacks == h.fallbacks
  {
    match t.setterFault
    case Some(m) => FormatFix(false, t, LogError(h, FormatFixFailed, Some(m), now))
    case None => FormatFix(true, FormatFields(t, hint), h)
  }

  /** Fixing the format twice with the same hint is the same as fixing it once. */
  lemma FixTextureFormatIdempotent(h: Handler, t: Texture, hint: string, now: Timestamp)
    requires t.setterFault.None?
    ensures var once := FixTextureFormat(h, t, hint, now);
            FixTextureFormat(once.handler, once.texture, hint, now) == once
  {
  }

  /** With either recognised hint the fixed texture has a supported triple. */
  lemma FixTextureFormatSupported(h: Handler, t: Texture, hint: string, now: Timestamp)
    requires t.setterFault.None?
    requires IsSRGBHint(hint) || IsLinearHint(hint)
    ensures SupportedTriple(Triple(FixTextureFormat(h, t, hint, now).texture))
  {
  }

  // ------------------------------------------------------------------
  // createFallbackTexture
  // ------------------------------------------------------------------

  /** The outcome of falling back to a placeholder for `name`, starting from
      state `h` after `errs` errors were logged on the way: with a working
      canvas, a placeholder registered under `name` and exactly one more
      warning; without one, the canvas error thrown, with no warning and no
      registry change. */
  predicate FellBack(h: Handler, name: string, errs: nat, env: Env, r: Step<Texture>)
  {
    && Appended(h.errors, r.handler.errors, errs)
    && (env.canvasFault.None? ==>
          && r.result.Normal? && IsPlaceholder(r.result.value)
          && OrderedMap.Get(r.handler.fallbacks, name) == Some(r.result.value)
          && Appended(h.warnings, r.handler.warnings, 1)
          && r.handler.warnings[|h.warnings|] == Record("Created fallback texture for: " + name, None, env.now))
    && (env.canvasFault.Some? ==>
          && r.result == Abrupt(env.canvasFault.value)
          && r.handler.warnings == h.warnings && r.handler.fallbacks == h.fallbacks)
  }

  /** `createFallbackTexture(name)`: draws a 512 by 512 sRGB placeholder,
      registers it under `name` (replacing an earlier one in place, so the
      name is never listed twice), logs one warning and no error, and
      returns it. Other names keep their placeholders. */
  function CreateFallbackTexture(h: Handler, name: string, env: Env): (r: Step<Texture>)
    ensures FellBack(h, name, 0, env, r)
    ensures r.handler.errors == h.errors
    ensures forall n :: n != name ==> OrderedMap.Get(r.handler.fallbacks, n) == OrderedMap.Get(h.fallbacks, n)
    ensures OrderedMap.Keys(r.handler.fallbacks) ==
      if env.canvasFault.Some? || name in OrderedMap.Keys(h.fallbacks) then OrderedMap.Keys(h.fallbacks)
      else OrderedMap.Keys(h.fallbacks) + [name]
    ensures Valid(h) ==> Valid(r.handler)
  {
    match env.canvasFault
    case Some(m) => Step(Abrupt(m), h)
    case None =>
      var t := FallbackTexture();
      var registered := OrderedMap.Set(h.fallbacks, name, t);
      OrderedMap.SetKeys(h.fallbacks, name, t);
      OrderedMap.SetGet(h.fallbacks, name, t, name);
      OrderedMap.SetFrame(h.fallbacks, name, t);
      assert Valid(h) ==> OrderedMap.DistinctKeys(registered) by {
        if Valid(h) {
          OrderedMap.SetDistinct(h.fallbacks, name, t);
        }
      }
      var h' := LogWarning(h.(fallbacks := registered), "Created fallback texture for: " + name, None, env.now);
      Step(Normal(t), h')
  }

  /** Two fallbacks for the same name register it once and log two warnings. */
  lemma RepeatedFallbackKeepsOneEntry(h: Handler, name: string, env: Env)
    requires env.canvasFault.None?
    ensures var first := CreateFallbackTexture(h, name, env);
            var second := CreateFallbackTexture(first.handler, name, env);
            && OrderedMap.Keys(second.handler.fallbacks) == OrderedMap.Keys(first.handler.fallbacks)
            && |second.handler.warnings| == |h.warnings| + 2
            && second.handler.errors == h.errors
  {
  }

  /** Every placeholder passes the KTX2 dimension check without logging anything. */
  lemma PlaceholderPassesValidation(h: Handler, t: Texture, name: string, now: Timestamp)
    requires IsPlaceholder(t)
    ensures ValidateTextureDimensions(h, t, name, now) == Verdict(true, h)
  {
  }

  // ------------------------------------------------------------------
  // fixExistingTexture
  // ------------------------------------------------------------------

  /** `u` is `t` repaired for `hint`: the chosen triple, marked for upload,
      mipmaps on, trilinear minification, bilinear magnification, both wrap
      modes clamped to the edge, and the image untouched. */
  predicate Repaired(t: Texture, hint: string, u: Texture)
  {
    && FormatChosen(t, hint, u)
    && u.needsUpdate
    && u.generateMipmaps
    && u.minFilter == LinearMipmapLinearFilter && u.magFilter == LinearFilter
    && u.wrapS == ClampToEdgeWrapping && u.wrapT == ClampToEdgeWrapping
    && u.image == t.image && u.setterFault == t.setterFault
  }

  /** The texture object as `fixExistingTexture` leaves it: the function works
      on its argument in place, so a texture whose assignments throw is left
      exactly as it was, while any other is repaired. */
  function RepairedInPlace(t: Texture, hint: string): (u: Texture)
    ensures t.setterFault.None? ==> Repaired(t, hint, u)
    ensures t.setterFault.Some? ==> u == t
  {
    if t.setterFault.Some? then t
    else FormatFields(t, hint).(generateMipmaps := true, minFilter := LinearMipmapLinearFilter,
                                magFilter := LinearFilter, wrapS := ClampToEdgeWrapping,
                                wrapT := ClampToEdgeWrapping)
  }

  /** `fixExistingTexture(texture, name, colorSpace)`. A missing texture logs
      one error and is replaced by a fallback. A texture whose assignments
      throw logs two errors (the failed format fix, then the failed repair)
      and is replaced by a fallback. Any other texture is returned repaired,
      with nothing logged. */
  function FixExistingTexture(h: Handler, t: Option<Texture>, name: string, hint: string, env: Env): (r: Step<Texture>)
    ensures t.None? ==> FellBack(h, name, 1, env, r)
    ensures t.None? ==> r.handler.errors[|h.errors|] == Record("Texture " + name + " is null or undefined", None, env.now)
    ensures t.Some? && t.value.setterFault.Some? ==> FellBack(h, name, 2, env, r)
    ensures t.Some? && t.value.setterFault.Some? ==>
      r.handler.errors[|h.errors|] == Record(FormatFixFailed, t.value.setterFault, env.now)
    ensures t.Some? && t.value.setterFault.Some? ==>
      r.handler.errors[|h.errors| + 1] == Record("Failed to fix texture " + name, t.value.setterFault, env.now)
    ensures t.Some? && t.value.setterFault.None? ==>
      r.handler == h && r.result.Normal? && Repaired(t.value, hint, r.result.value)
    ensures forall n :: n != name ==> OrderedMap.Get(r.handler.fallbacks, n) == OrderedMap.Get(h.fallbacks, n)
    ensures Valid(h) ==> Valid(r.handler)
  {
    match t
    case None =>
      var h1 := LogError(h, "Texture " + name + " is null or undefined", None, env.now);
      CreateFallbackTexture(h1, name, env)
    case Some(tex) =>
      var f := FixTextureFormat(h, tex, hint, env.now);
      match tex.setterFault
      case Some(m) =>
        var h2 := LogError(f.handler, "Failed to fix texture " + name, Some(m), env.now);
        CreateFallbackTexture(h2, name, env)
      case None =>
        Step(Normal(RepairedInPlace(tex, hint)), f.handler)
  }

  /** Repairing an already repaired texture with the same hint changes nothing. */
  lemma RepairIdempotent(h: Handler, t: Texture, name: string, hint: string, env: Env)
    requires t.setterFault.None?
    ensures var once := FixExistingTexture(h, Some(t), name, hint, env);
            FixExistingTexture(once.handler, Some(once.result.value), name, hint, env) == once
  {
  }

  /** A repair under a recognised hint hands the renderer a supported triple. */
  lemma RepairSupported(t: Texture, hint: string, u: Texture)
    requires Repaired(t, hint, u)
    requires IsSRGBHint(hint) || IsLinearHint(hint)
    ensures SupportedTriple(Triple(u))
  {
  }

  // ------------------------------------------------------------------
  // fixAllTextures
  // ------------------------------------------------------------------

  /** The name fragments that mark a texture as carrying non-colour data. */
  const LinearMarkers: seq<string> := ["normal", "roughness", "metalness"]

  /** The lower-cased name contains one of the linear-data markers somewhere. */
  ghost predicate NamesLinearData(name: string)
  {
    exists w, i :: w in LinearMarkers && OccursAt(ToLower(name), w, i)
  }

  /** The colour-space hint `fixAllTextures` derives from a resource's name:
      linear exactly when the lower-cased name contains `normal`, `roughness`
      or `metalness`, sRGB otherwise. */
  function HintForName(name: string): (hint: string)
    ensures hint == LinearSRGBColorSpace <==> NamesLinearData(name)
    ensures IsSRGBHint(hint) <==> !NamesLinearData(name)
    ensures IsSRGBHint(hint) || IsLinearHint(hint)
  {
    var lower := ToLower(name);
    IncludesMeansOccurs(lower, "normal");
    IncludesMeansOccurs(lower, "roughness");
    IncludesMeansOccurs(lower, "metalness");
    if Includes(lower, "normal") || Includes(lower, "roughness") || Includes(lower, "metalness")
    then LinearSRGBColorSpace
    else SRGBColorSpace
  }

  /** An occurrence of a non-empty word starts with the word's first letter. */
  lemma OccurrenceStartsWith(s: string, w: string, i: int)
    requires OccursAt(s, w, i) && |w| > 0
    ensures i < |s| && s[i] == w[0]
  {
  }

  /** A name whose lower-cased form lacks the first letter of every marker
      cannot carry a marker. */
  lemma NoMarkerWithoutInitials(name: string)
    requires forall k :: 0 <= k < |name| ==> LowerChar(name[k]) !in "nrm"
    ensures !NamesLinearData(name)
  {
    var lower := ToLower(name);
    forall w, i | w in LinearMarkers && OccursAt(lower, w, i) ensures false {
      OccurrenceStartsWith(lower, w, i);
    }
  }

  /** Any name ending in `_normal`, such as `wall_normal`, gets the linear hint. */
  lemma NormalSuffixIsLinear(stem: string)
    ensures HintForName(stem + "_normal") == LinearSRGBColorSpace
  {
    var name := stem + "_normal";
    var lower := ToLower(name);
    var i := |stem| + 1;
    forall k | 0 <= k < 6 ensures lower[i + k] == "normal"[k] {
      assert name[i + k] == "normal"[k];
    }
    assert lower[i..i + 6] == "normal";
    assert OccursAt(lower, "normal", i);
  }

  /** A colour map such as `wall_diffuse` gets the sRGB hint. */
  lemma HintForColourMapName()
    ensures HintForName("wall_diffuse") == SRGBColorSpace
  {
    NoMarkerWithoutInitials("wall_diffuse");
  }

  /** The names of the texture entries, in order. */
  function TextureNames(items: seq<(string, Item)>): seq<string>
  {
    if |items| == 0 then []
    else (if items[0].1.TextureItem? then [items[0].0] else []) + TextureNames(items[1..])
  }

  /** The names of the texture entries that accept assignments, in order. */
  function SoundNames(items: seq<(string, Item)>): seq<string>
  {
    if |items| == 0 then []
    else (if items[0].1.TextureItem? && items[0].1.texture.setterFault.None? then [items[0].0] else [])
         + SoundNames(items[1..])
  }

  /** The names of the texture entries whose assignments throw, in order. */
  function FaultyNames(items: seq<(string, Item)>): seq<string>
  {
    if |items| == 0 then []
    else (if items[0].1.TextureItem? && items[0].1.texture.setterFault.Some? then [items[0].0] else [])
         + FaultyNames(items[1..])
  }

  /** One entry of the `failed` list. */
  datatype Failure = Failure(name: string, error: string)

  /** The names in a `failed` list. */
  function FailureNames(failed: seq<Failure>): (ns: seq<string>)
    ensures |ns| == |failed|
    ensures forall i :: 0 <= i < |failed| ==> ns[i] == failed[i].name
  {
    if |failed| == 0 then [] else [failed[0].name] + FailureNames(failed[1..])
  }

  /** What `fixAllTextures` returns (`fixed`, `failed`), with the resource
      entries as the in-place repairs leave them and the final state. */
  datatype BatchResult = BatchResult(fixed: seq<string>, failed: seq<Failure>, items: seq<(string, Item)>, handler: Handler)

  /** A resource entry as the batch leaves it: a texture is repaired in place
      with the hint its name selects; anything else is untouched. */
  function RepairEntry(entry: (string, Item)): (e: (string, Item))
    ensures e.0 == entry.0
    ensures entry.1.OtherItem? ==> e == entry
    ensures entry.1.TextureItem? ==> e.1.TextureItem?
    ensures entry.1.TextureItem? && entry.1.texture.setterFault.None? ==>
      Repaired(entry.1.texture, HintForName(entry.0), e.1.texture)
    ensures entry.1.TextureItem? && entry.1.texture.setterFault.Some? ==> e == entry
  {
    match entry.1
    case OtherItem(_) => entry
    case TextureItem(t) => (entry.0, TextureItem(RepairedInPlace(t, HintForName(entry.0))))
  }

  /** The resource entries as the batch leaves them, in order. */
  function RepairAll(items: seq<(string, Item)>): (r: seq<(string, Item)>)
    ensures |r| == |items|
    ensures forall i :: 0 <= i < |items| ==> r[i] == RepairEntry(items[i])
  {
    if |items| == 0 then []
    else
      var rest := RepairAll(items[1..]);
      assert forall i :: 0 < i < |items| ==> items[i] == items[1..][i - 1];
      [RepairEntry(items[0])] + rest
  }

  /** `fixAllTextures(resourceItems)`, over the entries in enumeration order.
      Non-texture entries are skipped. Every texture is repaired in place with
      the hint its name selects and listed in `fixed`, in input order; a
      texture whose assignments throw is replaced by a fallback and still
      listed as fixed, unless drawing that fallback throws too, in which case
      it is listed in `failed` with that error. */
  function FixAllTextures(h: Handler, items: seq<(string, Item)>, env: Env): (r: BatchResult)
    ensures r.items == RepairAll(items)
    ensures env.canvasFault.None? ==> r.fixed == TextureNames(items) && r.failed == []
    ensures env.canvasFault.Some? ==>
      && r.fixed == SoundNames(items)
      && FailureNames(r.failed) == FaultyNames(items)
      && forall f :: f in r.failed ==> f.error == env.canvasFault.value
    decreases |items|
  {
    if |items| == 0 then BatchResult([], [], [], h)
    else
      var name := items[0].0;
      match items[0].1
      case OtherItem(_) =>
        var rest := FixAllTextures(h, items[1..], env);
        BatchResult(rest.fixed, rest.failed, [items[0]] + rest.items, rest.handler)
      case TextureItem(t) =>
        var hint := HintForName(name);
        var step := FixExistingTexture(h, Some(t), name, hint, env);
        var rest := FixAllTextures(step.handler, items[1..], env);
        var repaired := [RepairEntry(items[0])] + rest.items;
        match step.result
        case Normal(_) => BatchResult([name] + rest.fixed, rest.failed, repaired, rest.handler)
        case Abrupt(m) => BatchResult(rest.fixed, [Failure(name, m)] + rest.failed, repaired, rest.handler)
  }

  /** The batch logs two errors for every texture whose assignments throw, one
      warning for each of them when fallbacks can be drawn, and nothing else;
      earlier records are kept. */
  lemma {:induction false} FixAllTexturesLog(h: Handler, items: seq<(string, Item)>, env: Env)
    ensures var r := FixAllTextures(h, items, env);
      && Appended(h.errors, r.handler.errors, 2 * |FaultyNames(items)|)
      && Appended(h.warnings, r.handler.warnings, if env.canvasFault.None? then |FaultyNames(items)| else 0)
    decreases |items|
  {
    if |items| > 0 {
      var name := items[0].0;
      match items[0].1
      case OtherItem(_) =>
        FixAllTexturesLog(h, items[1..], env);
      case TextureItem(t) =>
        var step := FixExistingTexture(h, Some(t), name, HintForName(name), env);
        var rest := FixAllTextures(step.handler, items[1..], env);
        assert FixAllTextures(h, items, env).handler == rest.handler;
        FixAllTexturesLog(step.handler, items[1..], env);
        AppendedTrans(h.errors, step.handler.errors, rest.handler.errors,
          if t.setterFault.Some? then 2 else 0, 2 * |FaultyNames(items[1..])|);
        AppendedTrans(h.warnings, step.handler.warnings, rest.handler.warnings,
          if t.setterFault.Some? && env.canvasFault.None? then 1 else 0,
          if env.canvasFault.None? then |FaultyNames(items[1..])| else 0);
    }
  }

  /** The batch registers a placeholder for exactly the textures whose
      assignments throw (when fallbacks can be drawn), leaves every other
      name's registry entry alone, and keeps the registry's names distinct. */
  lemma {:induction false} FixAllTexturesRegistry(h: Handler, items: seq<(string, Item)>, env: Env)
    ensures var r := FixAllTextures(h, items, env);
      && (forall n :: n !in FaultyNames(items) ==> OrderedMap.Get(r.handler.fallbacks, n) == OrderedMap.Get(h.fallbacks, n))
      && (env.canvasFault.None? ==> forall n :: n in FaultyNames(items) ==>
            OrderedMap.Get(r.handler.fallbacks, n).Some? && IsPlaceholder(OrderedMap.Get(r.handler.fallbacks, n).value))
      && (env.canvasFault.Some? ==> r.handler.fallbacks == h.fallbacks)
      && (Valid(h) ==> Valid(r.handler))
    decreases |items|
  {
    if |items| > 0 {
      var name := items[0].0;
      match items[0].1
      case OtherItem(_) =>
        FixAllTexturesRegistry(h, items[1..], env);
      case TextureItem(t) =>
        var step := FixExistingTexture(h, Some(t), name, HintForName(name), env);
        assert FixAllTextures(h, items, env).handler == FixAllTextures(step.handler, items[1..], env).handler;
        FixAllTexturesRegistry(step.handler, items[1..], env);
    }
  }

  /** A batch in which no texture's assignments throw logs nothing and leaves
      the registry as it was: the state is unchanged, and every texture is fixed. */
  lemma {:induction false} FixAllTexturesQuiet(h: Handler, items: seq<(string, Item)>, env: Env)
    requires FaultyNames(items) == []
    ensures FixAllTextures(h, items, env).handler == h
    ensures FixAllTextures(h, items, env).fixed == TextureNames(items)
    ensures FixAllTextures(h, items, env).failed == []
    decreases |items|
  {
    if |items| > 0 {
      FixAllTexturesQuiet(h, items[1..], env);
    }
  }

  /** Every texture entry is either sound or faulty, so the two name lists
      together enumerate the texture entries. */
  lemma {:induction false} SoundAndFaultyCoverTextures(items: seq<(string, Item)>)
    ensures forall n :: n in TextureNames(items) <==> n in SoundNames(items) || n in FaultyNames(items)
    ensures |SoundNames(items)| + |FaultyNames(items)| == |TextureNames(items)|
    decreases |items|
  {
    if |items| > 0 {
      SoundAndFaultyCoverTextures(items[1..]);
    }
  }

  /** The sound and the faulty name lists only hold names of entries. */
  lemma {:induction false} ListedNamesAreKeys(items: seq<(string, Item)>, n: string)
    ensures n in SoundNames(items) ==> n in OrderedMap.Keys(items)
    ensures n in FaultyNames(items) ==> n in OrderedMap.Keys(items)
    decreases |items|
  {
    if |items| > 0 {
      ListedNamesAreKeys(items[1..], n);
      assert OrderedMap.Keys(items) == [items[0].0] + OrderedMap.Keys(items[1..]);
    }
  }

  /** With distinct entry names no name is both sound and faulty. */
  lemma {:induction false} SoundAndFaultyDisjoint(items: seq<(string, Item)>)
    requires OrderedMap.DistinctKeys(items)
    ensures forall n :: !(n in SoundNames(items) && n in FaultyNames(items))
    decreases |items|
  {
    if |items| > 0 {
      var tail := items[1..];
      assert OrderedMap.DistinctKeys(tail);
      SoundAndFaultyDisjoint(tail);
      ListedNamesAreKeys(tail, items[0].0);
    }
  }

  /** `fixed` and `failed` split the texture entries of a resource collection:
      no name is in both, together they hold exactly the texture names, and
      each texture is listed once. */
  lemma FixAllTexturesPartition(h: Handler, items: seq<(string, Item)>, env: Env)
    requires OrderedMap.DistinctKeys(items)
    ensures var r := FixAllTextures(h, items, env);
      && (forall n :: !(n in r.fixed && n in FailureNames(r.failed)))
      && (forall n :: n in r.fixed || n in FailureNames(r.failed) <==> n in TextureNames(items))
      && |r.fixed| + |r.failed| == |TextureNames(items)|
  {
    SoundAndFaultyCoverTextures(items);
    SoundAndFaultyDisjoint(items);
  }
}

=== FILE: safe_load.dfy ===
/** `loadTextureSafe(name, source, type, loader)`: turning a loader's settled
    outcome into a usable texture. The loader itself, and the `source` it is
    given, are abstracted to the outcome they produce. */
module SafeLoad {
  import opened Base
  import opened Textures
  import opened Diagnostics
  import opened Remediation
  import OrderedMap

  /** The value a loader rejects with: an error object, whose `message` may be
      undefined (an `Event`, say), or `null`/`undefined` itself. */
  datatype Reason = ErrorValue(message: Option<string>) | Nullish

  /** A JavaScript value as `loadTextureSafe` sees it: an object (a texture
      or anything else a loader produces), a primitive such as a string or a
      number, or `null`/`undefined`. */
  datatype Value = Loaded(item: Item) | PrimitiveValue(tag: string) | NullishValue

  /** The value is a texture object. */
  predicate HoldsTexture(v: Value)
  {
    v.Loaded? && v.item.TextureItem?
  }

  /** How the promise around `loader.load(source, …)` settled. */
  datatype LoadOutcome = Resolved(value: Value) | Rejected(reason: Reason)

  /** The `type` string that asks for the texture treatment. */
  const TextureKind: string := "texture"

  /** The messages of the `TypeError`s the engine throws for property access
      on unsuitable values; their exact wording is the JavaScript engine's. */
  const NullishReadError: string := "Cannot read properties of undefined (reading 'message')"
  const NullishWriteError: string := "Cannot set properties of undefined (setting 'colorSpace')"
  const NullishImageReadError: string := "Cannot read properties of undefined (reading 'image')"
  const PrimitiveWriteError: string := "Cannot create property 'colorSpace' on a primitive value"

  /** The `catch` branch once the caught error's message is known: one error
      is logged and a fallback is created (which throws only if the canvas does). */
  function OnRejected(h: Handler, name: string, message: Option<string>, env: Env): (r: Step<Value>)
    ensures Appended(h.errors, r.handler.errors, 1)
    ensures r.handler.errors[|h.errors|] == Record("Failed to load " + name, message, env.now)
    ensures FallsBack(h, name, env, r)
    ensures Valid(h) ==> Valid(r.handler)
  {
    var fb := CreateFallbackTexture(LogError(h, "Failed to load " + name, message, env.now), name, env);
    match fb.result
    case Normal(t) => Step(Normal(Loaded(TextureItem(t))), fb.handler)
    case Abrupt(m) => Step(Abrupt(m), fb.handler)
  }

  /** The resolved branch. With `type` other than `'texture'` the value is
      returned as loaded. With `'texture'`, `fixTextureFormat` runs on whatever
      was resolved: a texture has its format fixed for sRGB; a plain object
      accepts the assignments silently; a primitive rejects them in strict
      mode, which the format fix logs; `null` or `undefined` rejects them
      too, and the following read of `texture.image` throws into the outer
      `catch`, which logs the load as failed and falls back. */
  function OnResolved(h: Handler, name: string, kind: string, value: Value, env: Env): Step<Value>
  {
    if kind != TextureKind then Step(Normal(value), h)
    else
      match value
      case Loaded(TextureItem(t)) =>
        var f := FixTextureFormat(h, t, SRGBColorSpace, env.now);
        Step(Normal(Loaded(TextureItem(f.texture))), f.handler)
      case Loaded(OtherItem(_)) => Step(Normal(value), h)
      case PrimitiveValue(_) => Step(Normal(value), LogError(h, FormatFixFailed, Some(PrimitiveWriteError), env.now))
      case NullishValue =>
        OnRejected(LogError(h, FormatFixFailed, Some(NullishWriteError), env.now), name, Some(NullishImageReadError), env)
  }

  /** `loadTextureSafe` as written: the `catch` block reads `error.message`,
      which itself throws when the rejection reason is `null` or `undefined`. */
  function LoadTextureSafeAsWritten(h: Handler, name: string, kind: string, outcome: LoadOutcome, env: Env): (r: Step<Value>)
    ensures outcome.Rejected? && outcome.reason.Nullish? ==> r == Step(Abrupt(NullishReadError), h)
  {
    match outcome
    case Resolved(value) => OnResolved(h, name, kind, value, env)
    case Rejected(ErrorValue(message)) => OnRejected(h, name, message, env)
    case Rejected(Nullish) => Step(Abrupt(NullishReadError), h)
  }

  /** The message the corrected `catch` block logs (`error?.message`). */
  function MessageOf(reason: Reason): Option<string>
  {
    match reason
    case ErrorValue(message) => message
    case Nullish => None
  }

  /** The load ends in a fallback for `name`: with a working canvas, a
      placeholder registered under it (in place, or appended to the key
      order) and one warning announcing it; otherwise the canvas's error,
      with no warning and the registry as it was. No other name's entry
      changes either way. */
  ghost predicate FallsBack(h: Handler, name: string, env: Env, r: Step<Value>)
  {
    && (forall n :: n != name ==> OrderedMap.Get(r.handler.fallbacks, n) == OrderedMap.Get(h.fallbacks, n))
    && (env.canvasFault.None? ==>
          && r.result.Normal? && HoldsTexture(r.result.value) && IsPlaceholder(r.result.value.item.texture)
          && OrderedMap.Get(r.handler.fallbacks, name) == Some(r.result.value.item.texture)
          && OrderedMap.Keys(r.handler.fallbacks) ==
               (if name in OrderedMap.Keys(h.fallbacks) then OrderedMap.Keys(h.fallbacks)
                else OrderedMap.Keys(h.fallbacks) + [name])
          && Appended(h.warnings, r.handler.warnings, 1)
          && r.handler.warnings[|h.warnings|] == Record("Created fallback texture for: " + name, None, env.now))
    && (env.canvasFault.Some? ==>
          r.result == Abrupt(env.canvasFault.value) && r.handler.warnings == h.warnings && r.handler.fallbacks == h.fallbacks)
  }

  /** `loadTextureSafe`, with the rejection's message read safely. Nothing
      escapes except the canvas's own failure while falling back. */
  function LoadTextureSafe(h: Handler, name: string, kind: string, outcome: LoadOutcome, env: Env): (r: Step<Value>)
    ensures env.canvasFault.None? ==> r.result.Normal?
    ensures r.result.Abrupt? ==>
      && (outcome.Rejected? || (kind == TextureKind && outcome.value.NullishValue?))
      && r.result == Abrupt(env.canvasFault.value)
    // any other type: the value as loaded, nothing logged
    ensures outcome.Resolved? && kind != TextureKind ==> r == Step(Normal(outcome.value), h)
    // a texture: its format fixed for sRGB, or one logged error if it refuses
    ensures outcome.Resolved? && kind == TextureKind && HoldsTexture(outcome.value)
            && outcome.value.item.texture.setterFault.None? ==>
      && r.handler == h && r.result.Normal? && HoldsTexture(r.result.value)
      && FormatApplied(outcome.value.item.texture, SRGBColorSpace, r.result.value.item.texture)
    ensures outcome.Resolved? && kind == TextureKind && HoldsTexture(outcome.value)
            && outcome.value.item.texture.setterFault.Some? ==>
      && r.result == Normal(outcome.value)
      && Appended(h.errors, r.handler.errors, 1)
      && r.handler.errors[|h.errors|] == Record(FormatFixFailed, outcome.value.item.texture.setterFault, env.now)
      && r.handler.warnings == h.warnings && r.handler.fallbacks == h.fallbacks
    // a plain object: returned, nothing logged
    ensures outcome.Resolved? && kind == TextureKind && outcome.value.Loaded? && outcome.value.item.OtherItem? ==>
      r == Step(Normal(outcome.value), h)
    // a primitive: returned after one logged format-fix error
    ensures outcome.Resolved? && kind == TextureKind && outcome.value.PrimitiveValue? ==>
      && r.result == Normal(outcome.value)
      && Appended(h.errors, r.handler.errors, 1)
      && r.handler.errors[|h.errors|] == Record(FormatFixFailed, Some(PrimitiveWriteError), env.now)
      && r.handler.warnings == h.warnings && r.handler.fallbacks == h.fallbacks
    // null or undefined: two errors, then a fallback
    ensures outcome.Resolved? && kind == TextureKind && outcome.value.NullishValue? ==>
      && Appended(h.errors, r.handler.errors, 2)
      && r.handler.errors[|h.errors|] == Record(FormatFixFailed, Some(NullishWriteError), env.now)
      && r.handler.errors[|h.errors| + 1] == Record("Failed to load " + name, Some(NullishImageReadError), env.now)
      && FallsBack(h, name, env, r)
    // a rejection: one error, then a fallback
    ensures outcome.Rejected? ==>
      && Appended(h.errors, r.handler.errors, 1)
      && r.handler.errors[|h.errors|] == Record("Failed to load " + name, MessageOf(outcome.reason), env.now)
      && FallsBack(h, name, env, r)
    ensures Valid(h) ==> Valid(r.handler)
  {
    match outcome
    case Resolved(value) => OnResolved(h, name, kind, value, env)
    case Rejected(reason) => OnRejected(h, name, MessageOf(reason), env)
  }

  /** The two versions differ only on a `null` or `undefined` rejection reason. */
  lemma AsWrittenAgreesOtherwise(h: Handler, name: string, kind: string, outcome: LoadOutcome, env: Env)
    requires !(outcome.Rejected? && outcome.reason.Nullish?)
    ensures LoadTextureSafeAsWritten(h, name, kind, outcome, env) == LoadTextureSafe(h, name, kind, outcome, env)
  {
  }

  /** As written, a loader that rejects with `undefined` makes the "safe"
      loader throw, even though the canvas works and a fallback could be drawn. */
  lemma NullishRejectionEscapes()
    ensures LoadTextureSafeAsWritten(Initial, "starduster", TextureKind, Rejected(Nullish), Env("t0", None)).result.Abrupt?
    ensures LoadTextureSafe(Initial, "starduster", TextureKind, Rejected(Nullish), Env("t0", None)).result.Normal?
  {
  }

  /** Corrected: a failed load raises the report's issue count by 2: the load failure
      is an error and the fallback it creates is a warning. The name then
      appears among the fallbacks created. */
  lemma FailedLoadCountsTwoIssues(h: Handler, name: string, kind: string, reason: Reason, env: Env)
    requires env.canvasFault.None?
    ensures var after := LoadTextureSafe(h, name, kind, Rejected(reason), env).handler;
            && TotalIssues(after) == TotalIssues(h) + 2
            && name in GetErrorReport(after).fallbacksCreated
  {
  }

  /** A loader that resolves with `undefined` for a `'texture'` raises the
      issue count by 3: the refused format fix and the failed read of its
      image are errors, and the fallback is a warning. */
  lemma ResolvedNullishCountsThreeIssues(h: Handler, name: string, env: Env)
    requires env.canvasFault.None?
    ensures var r := LoadTextureSafe(h, name, TextureKind, Resolved(NullishValue), env);
            && TotalIssues(r.handler) == TotalIssues(h) + 3
            && name in GetErrorReport(r.handler).fallbacksCreated
            && HoldsTexture(r.result.value) && IsPlaceholder(r.result.value.item.texture)
  {
  }

  /** Corrected: any rejected load through a fresh handler leaves exactly one
      error and one warning, and a registry holding only the name's placeholder. */
  lemma FreshRejectedLoad(name: string, reason: Reason, env: Env)
    requires env.canvasFault.None?
    ensures var r := LoadTextureSafe(Initial, name, TextureKind, Rejected(reason), env);
            && r.result.Normal? && HoldsTexture(r.result.value) && IsPlaceholder(r.result.value.item.texture)
            && r.result.value.item.texture.image == Some(Image(512, 512))
            && r.handler.errors == [Record("Failed to load " + name, MessageOf(reason), env.now)]
            && |r.handler.warnings| == 1
            && GetErrorReport(r.handler).fallbacksCreated == [name]
            && GetErrorReport(r.handler).totalIssues == 2
  {
  }

  /** The kind logged for the failed load of `starduster`. */
  lemma FailedLoadKind(name: string)
    requires name == "starduster"
    ensures "Failed to load " + name == "Failed to load starduster"
  {
  }

  /** A single unreachable texture asset, loaded through a fresh handler: the
      result is a 512 by 512 sRGB placeholder, the log holds one error naming
      the asset and one warning, and the report counts two issues. */
  lemma UnreachableAssetScenario(now: Timestamp)
    ensures var r := LoadTextureSafe(Initial, "starduster", TextureKind,
                                     Rejected(ErrorValue(Some("network error"))), Env(now, None));
            && r.result.Normal? && HoldsTexture(r.result.value)
            && r.result.value.item.texture.image == Some(Image(512, 512))
            && r.result.value.item.texture.colorSpace == SRGBColorSpace
            && r.handler.errors == [Record("Failed to load starduster", Some("network error"), now)]
            && |r.handler.warnings| == 1
            && GetErrorReport(r.handler).fallbacksCreated == ["starduster"]
            && GetErrorReport(r.handler).totalIssues == 2
  {
    FreshRejectedLoad("starduster", ErrorValue(Some("network error")), Env(now, None));
    FailedLoadKind("starduster");
  }
}

=== FILE: textures.dfy ===
/** The metadata of a three.js texture that the handler reads and writes,
    and the three.js constants it assigns. Pixel data is abstracted to the
    image's size; everything the handler never touches is left out. */
module Textures {
  import opened Base

  /** Colour-space tags: three.js represents them as strings. */
  const SRGBColorSpace: string := "srgb"
  const LinearSRGBColorSpace: string := "srgb-linear"

  /** three.js wrapping, filter, data-type and format constants, by value. */
  const ClampToEdgeWrapping: int := 1001
  const LinearFilter: int := 1006
  const LinearMipmapLinearFilter: int := 1008
  const UnsignedByteType: int := 1009
  const RGBAFormat: int := 1023

  /** The size of the image behind a texture. */
  datatype Image = Image(width: nat, height: nat)

  /** A texture's metadata. `image` is None when the texture has no image yet.
      `setterFault` injects the failure the handler guards against with
      `try`/`catch`: when it is Some(m), every assignment to this texture
      throws an error with message `m` and leaves the texture as it was. */
  datatype Texture = Texture(
    image: Option<Image>,
    colorSpace: string,
    format: int,
    dataType: int,
    needsUpdate: bool,
    generateMipmaps: bool,
    minFilter: int,
    magFilter: int,
    wrapS: int,
    wrapT: int,
    setterFault: Option<string>)

  /** A value of the resource collection: a texture, or anything else
      (a loaded model, say), known only by an opaque tag. */
  datatype Item = TextureItem(texture: Texture) | OtherItem(tag: string)

  /** The (colour space, format, data type) triple a texture is uploaded with. */
  function Triple(t: Texture): (string, int, int)
  {
    (t.colorSpace, t.format, t.dataType)
  }

  /** The triples the renderer is given by a repair: 8-bit RGBA in either colour space. */
  predicate SupportedTriple(c: (string, int, int))
  {
    c == (SRGBColorSpace, RGBAFormat, UnsignedByteType) || c == (LinearSRGBColorSpace, RGBAFormat, UnsignedByteType)
  }

  /** A hint asks for the display colour space when it is the three.js
      constant. The handler also accepts the literal `'srgb'`, which is that
      constant's value, so one comparison covers both. */
  predicate IsSRGBHint(hint: string)
  {
    hint == SRGBColorSpace
  }

  /** A hint asks for the linear colour space only as the three.js constant. */
  predicate IsLinearHint(hint: string)
  {
    hint == LinearSRGBColorSpace
  }

  /** The side length of every fallback texture's canvas. */
  const FallbackSize: nat := 512

  /** Whether `n` pixels fill whole 4-pixel compression blocks: rounding the
      block count up loses nothing. */
  predicate FillsWholeBlocks(n: nat)
  {
    4 * ((n + 3) / 4) == n
  }

  /** What a freshly drawn fallback texture looks like: a 512 by 512 canvas,
      tagged sRGB and marked for upload, with the three.js defaults for the
      rest of the record. */
  function FallbackTexture(): Texture
  {
    Texture(Some(Image(FallbackSize, FallbackSize)), SRGBColorSpace, RGBAFormat, UnsignedByteType,
            true, true, LinearMipmapLinearFilter, LinearFilter, ClampToEdgeWrapping, ClampToEdgeWrapping, None)
  }

  /** A texture is a placeholder of the kind the handler creates. */
  predicate IsPlaceholder(t: Texture)
  {
    t.image == Some(Image(FallbackSize, FallbackSize)) && t.colorSpace == SRGBColorSpace && t.needsUpdate
  }
}
